=== FILE: README.md ===
# send-results, modelled in Dafny

`netlify/functions/send-results.js` is a serverless function. It takes a
filled-in product survey, posted as JSON, and renders it as one HTML bot message
(`formatMessage`). It splits that message into parts meant to fit a
4000-character limit (`splitMessage`). It finds the chats of the non-bot
senders among up to 100 bot updates (`getAllChats`), then sends the parts to every chat, one chat
after the other, with pauses between the calls (`handler`).

This project models those four pieces and proves what they guarantee. The
network and the environment become parameters, and the pauses become output:
- the parsed `getUpdates` reply is an input;
- the answer of `sendMessage` is an oracle `accepts(chat, partIndex)`;
- the token is an optional string;
- what the handler does is returned as a list of events: `FetchUpdates`,
  `Send(chat, part, text, delivered)` and `Sleep(ms)`.

Modules, one per file:

- `Text`: the JavaScript string operations used (`indexOf`, `substring`,
  `split`, `repeat`, `includes`), and a reference `Join` that re-inserts
  the separator between pieces, as the packing loop does with `+=`. Two
  round trips connect `Split` and `Join`.
- `Chunker`: `splitMessage`. The packing loop is a method proved against a
  specification (`Packing`) of which groups of whole pieces become parts.
- `Formatter`: `formatMessage`, as a method that appends template after
  template. The module also proves how `splitMessage` cuts a formatted
  message.
- `Discovery`: the filter and de-duplication in `getAllChats`.
- `Dispatch`: the nested send loop of the handler.
- `Handler`: the guards and the pipeline of the handler.
- `Wrappers`: `Option` and `Result`.

Behaviour of the code that the model keeps as it is:
- User text is embedded in the HTML without escaping.
- Part 0 has no length bound. It is the header plus the heading line and
  the rule, so a long intro, name or summary makes it longer than
  `maxLength`.
- A part after part 0 can be longer than `maxLength`. The divider is added
  after the length check, so a part can be up to 25 characters over. A single
  piece longer than the limit becomes a part of its own plus a divider,
  unless it is the last piece.
- The heading text ends part 0 and starts part 1 again. Part 0 ends with the
  heading, a newline and the rule, after an unclosed `<b>`.
- Discovered chats keep the order in which they first appear (a JavaScript
  `Set`), not an arbitrary order.
- An update that passes the sender filter but has no `chat` makes
  `getAllChats` throw. That produces a 500, not an empty list of subscribers.
- User text that contains the heading's first character ('📝') in a field
  written before the heading line, or the divider's character ('─') in an
  item or the page URL, moves where `splitMessage` cuts: `indexOf` may find
  the heading inside that text, and `split` may cut an item block in two,
  whose halves can then land in different parts. The lemmas about how a
  formatted message is cut assume text free of those characters.
- No version tag is rendered, since `formatMessage` writes none.

## Model

| member | source | states |
|---|---|---|
| Text.Repeat | netlify/functions/send-results.js:172 | `'═'.repeat(30)` and `'─'.repeat(25)`: exactly `n` copies of the character |
| Text.IndexOf | netlify/functions/send-results.js:198 | -1 exactly when the heading does not occur; otherwise the heading occurs there and nowhere before |
| Text.Substring | netlify/functions/send-results.js:199-200 | bounds in range give the slice; a negative start or end is clamped to 0 and the bounds swapped |
| Text.Split | netlify/functions/send-results.js:201 | `split` always yields at least one piece |
| Text.SplitPiecesFree | netlify/functions/send-results.js:201 | no piece of a split contains the divider |
| Text.JoinSplit | netlify/functions/send-results.js:201 | joining the pieces with the divider gives back the items section |
| Text.SplitJoin | netlify/functions/send-results.js:201 | splitting a join gives back the pieces when none holds the divider's character |
| Text.FirstOccurrenceAfter | netlify/functions/send-results.js:198 | `indexOf` finds the pattern right after a prefix that lacks its first character |
| Text.Absent | netlify/functions/send-results.js:198 | a string lacking the pattern's first character gives -1 |
| Chunker.DividerRule | netlify/functions/send-results.js:172 | the divider is `'─'.repeat(25)` and the rule `'═'.repeat(30)` |
| Chunker.Header | netlify/functions/send-results.js:199 | empty when the heading is missing; otherwise the prefix before the first heading |
| Chunker.ItemsSection | netlify/functions/send-results.js:200 | header + items section is the message; the whole message when the heading is missing; starts with the heading otherwise |
| Chunker.CutAt | netlify/functions/send-results.js:198-200 | a message whose first heading follows `pre` has header `pre` and items section from the heading on |
| Chunker.Pieces | netlify/functions/send-results.js:201 | the items section splits into at least one piece |
| Chunker.SplitMessage | netlify/functions/send-results.js:192-217 | `[message]` when it fits; otherwise part 0 is header + heading + newline + rule, the rest is a `Packing` of the pieces, concatenates to the items section, has no empty part, has at least one part for a non-empty message, and each part is at most max(limit, its first piece) + 25 |
| Chunker.PackItems | netlify/functions/send-results.js:205-216 | the loop emits exactly the greedy groups of whole pieces: a group closes only when the next piece does not fit, every added piece fits, and an empty last group is dropped |
| Chunker.PushGroup | netlify/functions/send-results.js:207-209 | closing the current part at a piece that does not fit keeps the packing invariant |
| Chunker.Finish | netlify/functions/send-results.js:216 | pushing the last part only when non-empty completes a `Packing` |
| Chunker.PackingFacts | netlify/functions/send-results.js:199-216 | the parts after part 0 concatenate to the items section, are non-empty, exist for a non-empty message, and respect the length bound |
| Chunker.PackingConcat | netlify/functions/send-results.js:201-216 | the parts concatenate to the pieces re-joined with the divider: nothing is lost, duplicated or reordered |
| Chunker.PackingPrefix | netlify/functions/send-results.js:205-216 | the first k parts spell out the pieces before the k-th cut |
| Chunker.PackingWholePieces | netlify/functions/send-results.js:205-214 | each part is a run of consecutive whole pieces joined by the divider, ending with the divider exactly when pieces follow it |
| Chunker.PackingNonEmpty | netlify/functions/send-results.js:208-216 | no emitted part is empty |
| Chunker.PackingBound | netlify/functions/send-results.js:206-214 | each part is at most max(limit, its first piece) + 25, and one of two or more pieces at most limit + 25 |
| Chunker.FlatJoin | netlify/functions/send-results.js:211-213 | a run of pieces is their join plus a trailing divider unless it ends the section |
| Chunker.FlatAppend | netlify/functions/send-results.js:206-214 | adjacent runs of pieces concatenate to the run spanning both |
| Formatter.DeviceLabel | netlify/functions/send-results.js:186 | "📱 Mobile" exactly when the user agent contains "Mobile", "💻 Desktop" exactly when it does not |
| Formatter.FormatFails | netlify/functions/send-results.js:160-186 | formatting fails exactly when the form, summary, items or user agent is missing, naming the first one read |
| Formatter.FormatMessage | netlify/functions/send-results.js:160-189 | the appended templates give `Format(data)`: the rendered message, or the error at the first missing value |
| Formatter.AppendBlocks | netlify/functions/send-results.js:174-182 | the item loop appends every item's block in order, each closed by the divider line |
| Formatter.BlocksSnoc | netlify/functions/send-results.js:174-182 | one more item adds its block at the end |
| Formatter.BlocksCons | netlify/functions/send-results.js:174-182 | the blocks of an item followed by more items |
| Formatter.IntroUnmarked | netlify/functions/send-results.js:161-172 | nothing written before the heading line holds the heading's first character, given the user fields do not |
| Formatter.RenderLayout | netlify/functions/send-results.js:198-203 | when the name, Telegram handle, date and summary counts hold no '📝', the heading is found inside the heading line: part 0 is the intro, `<b>`, heading, newline and rule, and the items section runs from the heading to the end |
| Formatter.RenderSection | netlify/functions/send-results.js:200 | when those fields hold no '📝', the items section of a formatted message is heading, heading-line end, item blocks and footer |
| Formatter.Cells | netlify/functions/send-results.js:174-186 | one cell per item plus one for the footer |
| Formatter.JoinCells | netlify/functions/send-results.js:174-186 | the cells joined by the divider are the item blocks between heading and footer |
| Formatter.BodyUndivided | netlify/functions/send-results.js:175-180 | an item block without its divider holds no '─' when the item's texts hold none |
| Formatter.FooterUndivided | netlify/functions/send-results.js:184-186 | the footer holds no '─' when the page URL holds none |
| Formatter.HeadingUndivided | netlify/functions/send-results.js:172 | the heading line holds no '─' |
| Formatter.CellsUndivided | netlify/functions/send-results.js:175-186 | no cell holds the divider's character |
| Formatter.RenderPieces | netlify/functions/send-results.js:201 | when the fields before the heading hold no '📝' and no item text or page URL holds '─', a formatted message splits into exactly one piece per item plus the footer, so no item block is cut across parts |
| Discovery.EligibleIds | netlify/functions/send-results.js:88-92 | a chat id is collected exactly when some update from a non-bot sender has it |
| Discovery.Distinct | netlify/functions/send-results.js:86-94 | the `Set` keeps exactly the collected values, each once |
| Discovery.DistinctOrder | netlify/functions/send-results.js:94 | `Array.from` lists the ids in order of first appearance |
| Discovery.GetAllChats | netlify/functions/send-results.js:82-94 | the `forEach` over the updates gives `ChatList`: empty for a non-ok reply or no result, an error for an eligible update without a chat, otherwise the distinct ids |
| Discovery.FirstUpdate | netlify/functions/send-results.js:88-92 | the index of the first update from a non-bot sender in chat `x`, and the number of updates exactly when there is none |
| Discovery.FirstUpdateOrder | netlify/functions/send-results.js:88-94 | a chat listed earlier among the collected ids has an earlier first update |
| Discovery.ChatsFound | netlify/functions/send-results.js:82-94 | for an ok reply: fails exactly when an eligible update lacks a chat; otherwise each chat of a non-bot sender exactly once, ordered by the index of its first such update |
| Dispatch.FirstRefused | netlify/functions/send-results.js:42-45 | every part before it is accepted and it is refused, or all parts are accepted |
| Dispatch.Broadcast | netlify/functions/send-results.js:38-52 | the nested loop performs exactly `Trace` and counts `SentCount`, the chats whose every part was accepted |
| Dispatch.InnerExit | netlify/functions/send-results.js:42-49 | the inner loop stops after the first refused part, or after the last part |
| Dispatch.PartAttempted | netlify/functions/send-results.js:42-47 | part i is sent exactly when it exists and every earlier part was accepted |
| Dispatch.AttemptsSends | netlify/functions/send-results.js:42-45 | the sends of the first j parts are parts below j, each with its own text |
| Dispatch.ChatSends | netlify/functions/send-results.js:40-49 | a chat receives part i, with its text, exactly when all earlier parts got through, and nothing else |
| Dispatch.SentCountBound | netlify/functions/send-results.js:46-61 | `sent_to` is at most `total_chats`, with equality exactly when every chat accepts every part |
| Dispatch.FirstSendsAppend | netlify/functions/send-results.js:40-52 | the first-part sends of two event runs are those of each, in order |
| Dispatch.AttemptsFirstSends | netlify/functions/send-results.js:42-44 | part 0 is sent to a chat once, as the first part |
| Dispatch.ChatsInOrder | netlify/functions/send-results.js:40-52 | every discovered chat is attempted, once, in discovery order |
| Handler.Deliver | netlify/functions/send-results.js:35-61 | the parts are part 0 and the greedy packing of the message's pieces, spelling out the items section, every chat is tried in order, and the count is `SentCount`, at most the number of chats |
| Handler.Handle | netlify/functions/send-results.js:3-76 | 405 for non-POST; 500 for an unparsable body, a missing token, a failed fetch, a malformed update, no subscribers or an incomplete form, in that order; nothing is sent unless the answer is 200; 200 carries `sent_to` ≤ `total_chats`; each chat gets its parts up to the first refused one, chats in discovery order |

## Left out

- Network I/O: `makeRequest` (`https.request`, the streamed reply, `JSON.parse` of it), and the network half of `getAllChats` and `sendMessage`. The reply to `getUpdates` is an input. The outcome of `sendMessage` is the oracle `accepts(chat, part)`.
- `sleep` and `setTimeout`: the pauses are `Sleep(ms)` events; real timing and `async`/`await` are not modelled, since the code runs strictly in sequence.
- `JSON.parse(event.body)` is reduced to its outcome: unparsable, or a form that may be `null`. `JSON.stringify` of the response, the response headers and `console.error` logging are left out.
- Handler.Handle: the 500 body carries a `Failure` value rather than the runtime's exception message, and its `timestamp` (`new Date().toISOString()`) is not modelled.
- Form fields are taken as the text the template literal makes of them. The conversion of numbers, `undefined` or objects to text is not modelled. Of the missing values that make the code throw, the form, `summary`, `items` and `user_agent` are modelled.
- Formatter.AppendBlocks: a `null` entry in `formData.items`, which throws at `item.code`, cannot be represented, since an `Item` is always present.
- Formatter.AppendBlocks: `Object.entries` key order is taken as the given item sequence.
- Replies that make `getAllChats` throw before its filter cannot be represented, since the reply is a typed value: a `null` reply to `getUpdates`, a truthy `result` that is not an array, and a `null` entry in `result` (each a `TypeError` at lines 82, 88 and 89).
- Formatter.DeviceLabel: a `user_agent` that is neither a string nor an array (it throws at `.includes`; an array is matched element by element) cannot be represented, since the user agent is text.
- A non-boolean `is_bot` is not modelled; only absent, `true` and `false` are. The same holds for a non-boolean `ok`. An update whose `chat` exists but has no `id` is not modelled either (it would add `undefined` to the set).
- Chunker.SplitMessage: lengths count Unicode code points, not the UTF-16 code units of JavaScript. An emoji counts 1 here and 2 in the source, which moves where the 4000 limit takes effect but nothing else.
- Telegram's own limits and the validity of the HTML markup (part 0 ends inside an unclosed `<b>`) are not modelled.

=== FILE: Chunker.dfy ===
/** The splitting of a long formatted message into parts that fit the bot
    platform's message limit (`splitMessage`). */
module Chunker {
  import opened Text

  /** The heading that opens the answers section of a formatted message. */
  const Heading: string := "📝 ВІДПОВІДІ ПО ТОВАРАХ:"
  /** The divider that closes every item block: `'─'.repeat(25)`. */
  const Divider: string := "─────────────────────────"
  /** The double rule written under the heading: `'═'.repeat(30)`. */
  const Rule: string := "══════════════════════════════"
  /** The divider and the rule are the repeated characters the code builds
      them from. */
  lemma DividerRule()
    ensures Divider == Repeat('─', 25)
    ensures Rule == Repeat('═', 30)
  {
    assert |Divider| == 25 && forall i | 0 <= i < 25 :: Divider[i] == '─';
    assert |Rule| == 30 && forall i | 0 <= i < 30 :: Rule[i] == '═';
  }

  /** The default `maxLength`, the one the handler uses. */
  const DefaultMaxLength: int := 4000

  function Max(a: int, b: int): int
  {
    if a < b then b else a
  }

  /** `message.indexOf(Heading)`: where the items section starts, or -1. */
  function HeaderEnd(message: string): int
  {
    IndexOf(message, Heading)
  }

  /** `message.substring(0, headerEnd)`: everything before the first heading,
      and nothing at all when there is no heading (a -1 bound clamps to 0). */
  function Header(message: string): (r: string)
    ensures HeaderEnd(message) == -1 ==> r == []
    ensures HeaderEnd(message) != -1 ==> |r| == HeaderEnd(message) && r <= message
  {
    Substring(message, 0, HeaderEnd(message))
  }

  /** `message.substring(headerEnd)`: the rest of the message from the first
      heading on, or the whole message when there is no heading. */
  function ItemsSection(message: string): (r: string)
    ensures Header(message) + r == message
    ensures HeaderEnd(message) == -1 ==> r == message
    ensures HeaderEnd(message) != -1 ==> Heading <= r
  {
    var k := HeaderEnd(message);
    if k == -1 then
      Substring(message, k, |message|)
    else
      assert message[k..k + |Heading|] == Heading;
      assert message[..k] + message[k..] == message;
      Substring(message, k, |message|)
  }

  /** A message whose first heading follows `pre` is cut right before that heading. */
  lemma CutAt(message: string, pre: string, rest: string)
    requires message == pre + Heading + rest && HeaderEnd(message) == |pre|
    ensures Header(message) == pre
    ensures ItemsSection(message) == Heading + rest
  {
    var tail := Heading + rest;
    AppendAssoc(pre, Heading, rest);
    assert message[..|pre|] == pre && message[|pre|..] == tail;
    assert Header(message) == Substring(message, 0, |pre|);
    assert ItemsSection(message) == Substring(message, |pre|, |message|);
  }

  /** Part 0 of a split message: the header followed by the heading and the rule. */
  function FirstPart(message: string): string
  {
    Header(message) + Heading + "\n" + Rule
  }

  /** `itemsSection.split(Divider)`. */
  function Pieces(message: string): (r: seq<string>)
    ensures |r| >= 1
  {
    Split(ItemsSection(message), Divider)
  }

  /** Piece `j` as the packing loop appends it: followed by the divider unless
      it is the last piece. */
  function Seg(pieces: seq<string>, j: nat): string
    requires j < |pieces|
  {
    pieces[j] + (if j < |pieces| - 1 then Divider else [])
  }

  /** Pieces `a` up to (not including) `b`, each followed by the divider
      unless it is the last piece of all. */
  function Flat(pieces: seq<string>, a: nat, b: nat): string
    requires a <= b <= |pieces|
    decreases b
  {
    if a == b then [] else Flat(pieces, a, b - 1) + Seg(pieces, b - 1)
  }

  ghost predicate Increasing(cuts: seq<nat>)
  {
    forall k, l :: 0 <= k < l < |cuts| ==> cuts[k] < cuts[l]
  }

  lemma IncreasingSnoc(cuts: seq<nat>, x: nat)
    requires Increasing(cuts) && cuts != [] && cuts[|cuts| - 1] < x
    ensures Increasing(cuts + [x])
  {
    var cuts' := cuts + [x];
    forall k, l | 0 <= k < l < |cuts'| ensures cuts'[k] < cuts'[l] {
      if l < |cuts| {
        assert cuts'[k] == cuts[k] && cuts'[l] == cuts[l];
      } else if k < |cuts| - 1 {
        assert cuts[k] < cuts[|cuts| - 1];
      }
    }
  }

  /** Group boundaries: `0 = cuts[0] < cuts[1] < ... < cuts[m] = |pieces|`. */
  ghost predicate Cuts(pieces: seq<string>, cuts: seq<nat>)
  {
    |cuts| >= 2 && cuts[0] == 0 && cuts[|cuts| - 1] == |pieces| && Increasing(cuts)
  }

  /** Group `k`: the run of pieces from `cuts[k]` up to `cuts[k + 1]`. */
  function Group(pieces: seq<string>, cuts: seq<nat>, k: nat): string
    requires k + 1 < |cuts| && cuts[k] <= cuts[k + 1] <= |pieces|
  {
    Flat(pieces, cuts[k], cuts[k + 1])
  }

  /** Every piece after the first of the run from `a` to `b` fitted beside the
      pieces before it when it was added. */
  ghost predicate Filled(pieces: seq<string>, maxLength: int, a: nat, b: nat)
    requires a <= b <= |pieces|
  {
    forall j :: a < j < b ==> Fits(pieces, maxLength, a, j)
  }

  /** Piece `j` fits beside the run of pieces from `a` up to it. */
  ghost predicate Fits(pieces: seq<string>, maxLength: int, a: nat, j: nat)
    requires a <= j < |pieces|
  {
    |Flat(pieces, a, j)| + |pieces[j]| <= maxLength
  }

  /** Group `k` was closed because the piece after it did not fit beside it. */
  ghost predicate Closed(pieces: seq<string>, maxLength: int, cuts: seq<nat>, k: nat)
    requires k + 1 < |cuts| && cuts[k] <= cuts[k + 1] < |pieces|
  {
    |Group(pieces, cuts, k)| + |pieces[cuts[k + 1]]| > maxLength
  }

  ghost predicate FilledGroup(pieces: seq<string>, maxLength: int, cuts: seq<nat>, k: nat)
    requires k + 1 < |cuts| && cuts[k] <= cuts[k + 1] <= |pieces|
  {
    Filled(pieces, maxLength, cuts[k], cuts[k + 1])
  }

  /** The first `n` parts of `tail` are the first `n` groups. */
  ghost predicate AllEmitted(pieces: seq<string>, cuts: seq<nat>, tail: seq<string>, n: nat)
    requires n < |cuts| && n <= |tail| && Increasing(cuts) && cuts[n] <= |pieces|
  {
    forall k :: 0 <= k < n ==> tail[k] == Group(pieces, cuts, k)
  }

  /** The first `n` groups were each closed by a piece that did not fit. */
  ghost predicate AllClosed(pieces: seq<string>, maxLength: int, cuts: seq<nat>, n: nat)
    requires n < |cuts| && Increasing(cuts) && cuts[n] < |pieces|
  {
    forall k :: 0 <= k < n ==> Closed(pieces, maxLength, cuts, k)
  }

  /** Every piece added to one of the first `n` groups fitted. */
  ghost predicate AllFilled(pieces: seq<string>, maxLength: int, cuts: seq<nat>, n: nat)
    requires n < |cuts| && Increasing(cuts) && cuts[n] <= |pieces|
  {
    forall k :: 0 <= k < n ==> FilledGroup(pieces, maxLength, cuts, k)
  }

  /** `tail` is what the packing loop makes of `pieces`: group `k` is the run
      of whole pieces from `cuts[k]` to `cuts[k + 1]`, re-joined with the
      divider; a group is closed only when the next piece does not fit beside
      it, every piece added to an open group fits, and an empty last group is
      not emitted. */
  ghost predicate Packing(pieces: seq<string>, maxLength: int, cuts: seq<nat>, tail: seq<string>)
  {
    Cuts(pieces, cuts) &&
    var m := |cuts| - 1;
    |tail| == (if Group(pieces, cuts, m - 1) == [] then m - 1 else m) &&
    AllEmitted(pieces, cuts, tail, |tail|) &&
    AllClosed(pieces, maxLength, cuts, m - 1) &&
    AllFilled(pieces, maxLength, cuts, m)
  }

  /** The parts emitted so far by the packing loop: `tail` holds the closed
      groups and `cuts` their boundaries, the last one being where the open
      group starts. */
  ghost predicate Packed(pieces: seq<string>, maxLength: int, cuts: seq<nat>, tail: seq<string>)
  {
    |cuts| == |tail| + 1 && cuts[0] == 0 && cuts[|tail|] < |pieces| && Increasing(cuts) &&
    AllEmitted(pieces, cuts, tail, |tail|) &&
    AllClosed(pieces, maxLength, cuts, |tail|) &&
    AllFilled(pieces, maxLength, cuts, |tail|)
  }

  /** Adding a boundary `x` at the end leaves the existing groups unchanged. */
  lemma Extend(pieces: seq<string>, maxLength: int, cuts: seq<nat>, x: nat, tail: seq<string>, t: string, n: nat)
    requires n < |cuts| && n <= |tail| && Increasing(cuts) && cuts[n] <= |pieces|
    requires Increasing(cuts + [x]) && x <= |pieces|
    ensures AllEmitted(pieces, cuts, tail, n) ==> AllEmitted(pieces, cuts + [x], tail + [t], n)
    ensures AllFilled(pieces, maxLength, cuts, n) ==> AllFilled(pieces, maxLength, cuts + [x], n)
    ensures cuts[n] < |pieces| && AllClosed(pieces, maxLength, cuts, n) ==>
      AllClosed(pieces, maxLength, cuts + [x], n)
  {
    var cuts' := cuts + [x];
    forall k | 0 <= k < n
      ensures Group(pieces, cuts', k) == Group(pieces, cuts, k)
      ensures (tail + [t])[k] == tail[k]
      ensures FilledGroup(pieces, maxLength, cuts', k) == FilledGroup(pieces, maxLength, cuts, k)
    {
      assert cuts'[k] == cuts[k] && cuts'[k + 1] == cuts[k + 1];
    }
    if cuts[n] < |pieces| {
      forall k | 0 <= k < n
        ensures Closed(pieces, maxLength, cuts', k) == Closed(pieces, maxLength, cuts, k)
      {
        assert cuts'[k] == cuts[k] && cuts'[k + 1] == cuts[k + 1];
      }
    }
  }

  /** Closing the open group at piece `i`, because piece `i` does not fit. */
  lemma PushGroup(pieces: seq<string>, maxLength: int, cuts: seq<nat>, tail: seq<string>, i: nat)
    requires Packed(pieces, maxLength, cuts, tail)
    requires cuts[|tail|] < i < |pieces|
    requires Filled(pieces, maxLength, cuts[|tail|], i)
    requires |Flat(pieces, cuts[|tail|], i)| + |pieces[i]| > maxLength
    ensures Packed(pieces, maxLength, cuts + [i], tail + [Flat(pieces, cuts[|tail|], i)])
  {
    var n := |tail|;
    var cuts', t := cuts + [i], Flat(pieces, cuts[n], i);
    var tail' := tail + [t];
    IncreasingSnoc(cuts, i);
    Extend(pieces, maxLength, cuts, i, tail, t, n);
    assert Group(pieces, cuts', n) == t;
    assert Closed(pieces, maxLength, cuts', n);
    assert FilledGroup(pieces, maxLength, cuts', n);
  }

  lemma AllFilledSnoc(pieces: seq<string>, maxLength: int, cuts: seq<nat>, n: nat)
    requires n + 1 < |cuts| && Increasing(cuts) && cuts[n + 1] <= |pieces|
    requires AllFilled(pieces, maxLength, cuts, n) && FilledGroup(pieces, maxLength, cuts, n)
    ensures AllFilled(pieces, maxLength, cuts, n + 1)
  {
  }

  lemma AllEmittedSnoc(pieces: seq<string>, cuts: seq<nat>, tail: seq<string>, n: nat)
    requires n + 1 < |cuts| && n + 1 <= |tail| && Increasing(cuts) && cuts[n + 1] <= |pieces|
    requires AllEmitted(pieces, cuts, tail, n) && tail[n] == Group(pieces, cuts, n)
    ensures AllEmitted(pieces, cuts, tail, n + 1)
  {
  }

  lemma AllEmittedTrim(pieces: seq<string>, cuts: seq<nat>, tail: seq<string>, t: string, n: nat)
    requires n < |cuts| && n <= |tail| && Increasing(cuts) && cuts[n] <= |pieces|
    requires AllEmitted(pieces, cuts, tail + [t], n)
    ensures AllEmitted(pieces, cuts, tail, n)
  {
    forall k | 0 <= k < n ensures tail[k] == Group(pieces, cuts, k) {
      assert (tail + [t])[k] == tail[k];
    }
  }

  /** Closing the last group once every piece has been added. */
  lemma Finish(pieces: seq<string>, maxLength: int, cuts: seq<nat>, tail: seq<string>, last: string)
    requires Packed(pieces, maxLength, cuts, tail)
    requires Filled(pieces, maxLength, cuts[|tail|], |pieces|)
    requires last == Flat(pieces, cuts[|tail|], |pieces|)
    ensures Packing(pieces, maxLength, cuts + [|pieces|], if last != [] then tail + [last] else tail)
  {
    var n := |tail|;
    var cuts' := cuts + [|pieces|];
    IncreasingSnoc(cuts, |pieces|);
    Extend(pieces, maxLength, cuts, |pieces|, tail, last, n);
    assert cuts'[n] == cuts[n] && cuts'[n + 1] == |pieces|;
    AllFilledSnoc(pieces, maxLength, cuts', n);
    assert Cuts(pieces, cuts');
    assert Group(pieces, cuts', n) == last;
    if last != [] {
      AllEmittedSnoc(pieces, cuts', tail + [last], n);
      assert AllEmitted(pieces, cuts', tail + [last], n + 1);
    } else {
      AllEmittedTrim(pieces, cuts', tail, last, n);
      assert AllEmitted(pieces, cuts', tail, n);
    }
  }

  /** splitMessage(message, maxLength): a message that fits is sent as it
      is; otherwise part 0 is the header closed by the heading and the rule,
      and the items section is cut at the dividers and packed into further
      parts. */
  method SplitMessage(message: string, maxLength: int) returns (parts: seq<string>, ghost cuts: seq<nat>)
    ensures |message| <= maxLength ==> parts == [message]
    ensures |message| > maxLength ==>
      && |parts| >= 1
      && parts[0] == FirstPart(message)
      && Packing(Pieces(message), maxLength, cuts, parts[1..])
      && Concat(parts[1..]) == ItemsSection(message)
      && (forall k :: 1 <= k < |parts| ==> parts[k] != [])
      && (message != [] ==> |parts| >= 2)
      && (forall k :: 1 <= k < |parts| ==>
            |parts[k]| <= Max(maxLength, |Pieces(message)[cuts[k - 1]]|) + |Divider|)
  {
    if |message| <= maxLength {
      return [message], [];
    }
    var headerEnd := IndexOf(message, Heading);
    var header := Substring(message, 0, headerEnd);
    var itemsSection := Substring(message, headerEnd, |message|);
    var items := Split(itemsSection, Divider);
    parts, cuts := PackItems(header + Heading + "\n" + Rule, items, maxLength);
    PackingFacts(message, maxLength, cuts, parts[1..]);
  }

  /** The packing loop of splitMessage: after part 0 (`first`), whole pieces
      are added to `currentPart`, with the divider put back after every piece
      but the last, and `currentPart` is pushed as a part when the next piece
      would take it over `maxLength`. The ghost `cuts` records where each
      part starts in the list of pieces. */
  method PackItems(first: string, items: seq<string>, maxLength: int) returns (parts: seq<string>, ghost cuts: seq<nat>)
    requires items != []
    ensures |parts| >= 1 && parts[0] == first
    ensures Packing(items, maxLength, cuts, parts[1..])
  {
    parts := [first];
    var currentPart: string := [];
    ghost var start: nat := 0;
    cuts := [0];
    for i := 0 to |items|
      invariant |parts| >= 1 && parts[0] == first
      invariant Packed(items, maxLength, cuts, parts[1..])
      invariant start == cuts[|cuts| - 1] && start <= i && (i > 0 ==> start < i)
      invariant currentPart == Flat(items, start, i)
      invariant Filled(items, maxLength, start, i)
    {
      FlatStep(items, start, i);
      FlatStep(items, i, i);
      if |currentPart| + |items[i]| > maxLength {
        if currentPart != [] {
          PushGroup(items, maxLength, cuts, parts[1..], i);
          assert (parts + [currentPart])[1..] == parts[1..] + [currentPart];
          parts := parts + [currentPart];
          cuts := cuts + [i];
        }
        currentPart := items[i];
        start := i;
      } else {
        FilledStep(items, maxLength, start, i);
        currentPart := currentPart + items[i];
      }
      if i < |items| - 1 {
        currentPart := currentPart + Divider;
      }
    }
    Finish(items, maxLength, cuts, parts[1..], currentPart);
    if currentPart != [] {
      assert (parts + [currentPart])[1..] == parts[1..] + [currentPart];
      parts := parts + [currentPart];
    }
    cuts := cuts + [|items|];
  }

  /** What a packing of the items section guarantees about the parts. */
  lemma PackingFacts(message: string, maxLength: int, cuts: seq<nat>, tail: seq<string>)
    requires Packing(Pieces(message), maxLength, cuts, tail)
    ensures Concat(tail) == ItemsSection(message)
    ensures forall k :: 0 <= k < |tail| ==> tail[k] != []
    ensures message != [] ==> |tail| >= 1
    ensures forall k :: 0 <= k < |tail| ==>
      |tail[k]| <= Max(maxLength, |Pieces(message)[cuts[k]]|) + |Divider|
  {
    var pieces := Pieces(message);
    PackingConcat(pieces, maxLength, cuts, tail);
    JoinSplit(ItemsSection(message), Divider);
    PackingNonEmpty(pieces, maxLength, cuts, tail);
    PackingBound(pieces, maxLength, cuts, tail);
    if message != [] {
      assert ItemsSection(message) != [];
    }
  }

  /** Adding piece `i` to the run that ends just before it. */
  lemma FlatStep(pieces: seq<string>, a: nat, i: nat)
    requires a <= i < |pieces|
    ensures Flat(pieces, a, i + 1) ==
      Flat(pieces, a, i) + pieces[i] + (if i < |pieces| - 1 then Divider else [])
  {
  }

  lemma FilledStep(pieces: seq<string>, maxLength: int, a: nat, i: nat)
    requires a <= i < |pieces|
    requires Filled(pieces, maxLength, a, i)
    requires a < i ==> Fits(pieces, maxLength, a, i)
    ensures Filled(pieces, maxLength, a, i + 1)
  {
    forall j | a < j <= i ensures Fits(pieces, maxLength, a, j) {
      if j == i {
        assert a < i;
      } else {
        assert a < j < i;
      }
    }
  }

  /** Two adjacent runs of pieces make up the run that spans both. */
  lemma {:induction false} FlatAppend(pieces: seq<string>, a: nat, b: nat, c: nat)
    requires a <= b <= c <= |pieces|
    ensures Flat(pieces, a, b) + Flat(pieces, b, c) == Flat(pieces, a, c)
    decreases c
  {
    if b < c {
      FlatAppend(pieces, a, b, c - 1);
    }
  }

  /** A run of pieces is those whole pieces joined by the divider, followed by
      one more divider unless the run ends with the last piece. */
  lemma {:induction false} FlatJoin(pieces: seq<string>, a: nat, b: nat)
    requires a < b <= |pieces|
    ensures Flat(pieces, a, b) ==
      Join(pieces[a..b], Divider) + (if b < |pieces| then Divider else [])
    decreases b
  {
    if b == a + 1 {
      assert pieces[a..b] == [pieces[a]];
    } else {
      var xs, p := pieces[a..b - 1], pieces[b - 1];
      var t: string := if b < |pieces| then Divider else [];
      FlatJoin(pieces, a, b - 1);
      assert pieces[a..b] == xs + [p];
      JoinSnoc(xs, p, Divider);
      assert Seg(pieces, b - 1) == p + t;
      AppendAssoc(Join(xs, Divider) + Divider, p, t);
    }
  }

  /** The first `k` emitted parts spell out the pieces before `cuts[k]`. */
  lemma {:induction false} PackingPrefix(pieces: seq<string>, maxLength: int, cuts: seq<nat>, tail: seq<string>, k: nat)
    requires Packing(pieces, maxLength, cuts, tail)
    requires k <= |tail|
    ensures Concat(tail[..k]) == Flat(pieces, 0, cuts[k])
  {
    if k > 0 {
      PackingPrefix(pieces, maxLength, cuts, tail, k - 1);
      assert tail[..k] == tail[..k - 1] + [tail[k - 1]];
      ConcatSnoc(tail[..k - 1], tail[k - 1]);
      FlatAppend(pieces, 0, cuts[k - 1], cuts[k]);
    }
  }

  /** Concatenating the parts of a packing gives back the pieces re-joined
      with the divider: nothing is lost, duplicated or reordered. */
  lemma PackingConcat(pieces: seq<string>, maxLength: int, cuts: seq<nat>, tail: seq<string>)
    requires Packing(pieces, maxLength, cuts, tail)
    ensures Concat(tail) == Join(pieces, Divider)
  {
    var m := |cuts| - 1;
    PackingPrefix(pieces, maxLength, cuts, tail, |tail|);
    assert tail[..|tail|] == tail;
    if |tail| == m - 1 {
      FlatAppend(pieces, 0, cuts[m - 1], cuts[m]);
    }
    assert Concat(tail) == Flat(pieces, 0, |pieces|);
    FlatJoin(pieces, 0, |pieces|);
    assert pieces[0..|pieces|] == pieces;
  }

  /** Every emitted part holds whole consecutive pieces joined by the divider,
      and ends with the divider exactly when more pieces follow it. */
  lemma PackingWholePieces(pieces: seq<string>, maxLength: int, cuts: seq<nat>, tail: seq<string>, k: nat)
    requires Packing(pieces, maxLength, cuts, tail)
    requires k < |tail|
    ensures cuts[k] < cuts[k + 1] <= |pieces|
    ensures tail[k] == Join(pieces[cuts[k]..cuts[k + 1]], Divider) +
                       (if cuts[k + 1] < |pieces| then Divider else [])
  {
    FlatJoin(pieces, cuts[k], cuts[k + 1]);
  }

  /** No emitted part is empty. */
  lemma PackingNonEmpty(pieces: seq<string>, maxLength: int, cuts: seq<nat>, tail: seq<string>)
    requires Packing(pieces, maxLength, cuts, tail)
    ensures forall k :: 0 <= k < |tail| ==> tail[k] != []
  {
    var m := |cuts| - 1;
    forall k | 0 <= k < |tail| ensures tail[k] != [] {
      if k < m - 1 {
        assert cuts[k + 1] < cuts[m];
        assert |Seg(pieces, cuts[k + 1] - 1)| >= |Divider|;
      }
    }
  }

  /** A part is at most the limit plus one divider, unless its first piece is
      alone over the limit, in which case it is that piece plus one divider. */
  lemma PackingBound(pieces: seq<string>, maxLength: int, cuts: seq<nat>, tail: seq<string>)
    requires Packing(pieces, maxLength, cuts, tail)
    ensures forall k :: 0 <= k < |tail| ==>
      |tail[k]| <= Max(maxLength, |pieces[cuts[k]]|) + |Divider|
    ensures forall k :: 0 <= k < |tail| && cuts[k + 1] - cuts[k] >= 2 ==>
      |tail[k]| <= maxLength + |Divider|
  {
    forall k | 0 <= k < |tail|
      ensures |tail[k]| <= Max(maxLength, |pieces[cuts[k]]|) + |Divider|
      ensures cuts[k + 1] - cuts[k] >= 2 ==> |tail[k]| <= maxLength + |Divider|
    {
      var a, b := cuts[k], cuts[k + 1];
      assert tail[k] == Flat(pieces, a, b - 1) + Seg(pieces, b - 1);
      if b - a >= 2 {
        assert FilledGroup(pieces, maxLength, cuts, k);
        assert Filled(pieces, maxLength, a, b);
        assert Fits(pieces, maxLength, a, b - 1);
        assert |Flat(pieces, a, b - 1)| + |pieces[b - 1]| <= maxLength;
      }
    }
  }
}

=== FILE: Discovery.dfy ===
/** Subscriber discovery (`getAllChats`): the chats of the people who wrote
    to the bot, taken from an already fetched `getUpdates` reply. */
module Discovery {
  import opened Wrappers

  /** `message.from`; `is_bot` may be absent, which counts as not a bot. */
  datatype Sender = Sender(isBot: Option<bool>)

  /** `update.message`: its sender and the id of its chat, each possibly absent. */
  datatype Message = Message(from: Option<Sender>, chat: Option<int>)

  datatype Update = Update(message: Option<Message>)

  /** The parsed `getUpdates` reply: `ok` and the optional `result` list. */
  datatype Updates = Updates(ok: bool, result: Option<seq<Update>>)

  /** The `TypeError` raised when an update that passes the filter has no chat. */
  datatype DiscoveryError = MissingChat

  /** `update.message && update.message.from && !update.message.from.is_bot`. */
  predicate Eligible(u: Update)
  {
    u.message.Some? && u.message.value.from.Some? && u.message.value.from.value.isBot != Some(true)
  }

  /** Every update that passes the filter has a chat to read the id of. */
  predicate WellFormed(us: seq<Update>)
  {
    forall i :: 0 <= i < |us| && Eligible(us[i]) ==> us[i].message.value.chat.Some?
  }

  /** The chat id of update `i`, which passes the filter. */
  function ChatOf(us: seq<Update>, i: nat): int
    requires i < |us| && Eligible(us[i]) && WellFormed(us)
  {
    us[i].message.value.chat.value
  }

  /** The chat ids of the updates that pass the filter, in update order,
      repetitions included. */
  function EligibleIds(us: seq<Update>): (r: seq<int>)
    requires WellFormed(us)
    ensures forall x :: x in r <==> exists i :: 0 <= i < |us| && Eligible(us[i]) && ChatOf(us, i) == x
  {
    if us == [] then []
    else
      var n := |us| - 1;
      var prev := EligibleIds(us[..n]);
      assert forall i :: 0 <= i < n ==> us[..n][i] == us[i];
      if Eligible(us[n]) then prev + [ChatOf(us, n)] else prev
  }

  /** `xs` without repetitions, each value kept where it first appears: what
      `Array.from` of a `Set` filled from `xs` gives. */
  function Distinct(xs: seq<int>): (r: seq<int>)
    ensures forall x :: x in r <==> x in xs
    ensures forall i, j :: 0 <= i < j < |r| ==> r[i] != r[j]
  {
    if xs == [] then []
    else
      var prev := Distinct(xs[..|xs| - 1]);
      assert forall x :: x in xs <==> x in xs[..|xs| - 1] || x == xs[|xs| - 1];
      if xs[|xs| - 1] in prev then prev else prev + [xs[|xs| - 1]]
  }

  /** Where `x` first appears in `xs`. */
  function FirstIndex(xs: seq<int>, x: int): (r: nat)
    requires x in xs
    ensures r < |xs| && xs[r] == x
    ensures forall k :: 0 <= k < r ==> xs[k] != x
  {
    if xs[0] == x then 0 else 1 + FirstIndex(xs[1..], x)
  }

  /** Update `u` passes the filter and comes from chat `x`. */
  predicate Carries(u: Update, x: int)
  {
    Eligible(u) && u.message.value.chat == Some(x)
  }

  /** The first update that passes the filter and comes from chat `x`, or
      `|us|` when there is none. */
  function FirstUpdate(us: seq<Update>, x: int): (r: nat)
    ensures r <= |us|
    ensures r < |us| <==> exists i :: 0 <= i < |us| && Carries(us[i], x)
    ensures r < |us| ==> Carries(us[r], x)
    ensures forall k :: 0 <= k < r ==> !Carries(us[k], x)
    decreases |us|
  {
    if us == [] then 0
    else if Carries(us[0], x) then 0
    else
      assert forall i :: 0 < i < |us| ==> us[1..][i - 1] == us[i];
      1 + FirstUpdate(us[1..], x)
  }

  /** getAllChats, once the reply is parsed: nothing when the reply is not
      `ok` or has no `result`; a `TypeError` when an update that passes the
      filter has no chat; otherwise the distinct chat ids. */
  function ChatList(updates: Updates): Result<seq<int>, DiscoveryError>
  {
    if !updates.ok || updates.result.None? then Ok([])
    else if !WellFormed(updates.result.value) then Err(MissingChat)
    else Ok(Distinct(EligibleIds(updates.result.value)))
  }

  /** getAllChats: the `forEach` over the updates adds the chat of every
      update that passes the filter to a `Set`, which keeps the ids in the
      order they were first added. */
  method GetAllChats(updates: Updates) returns (r: Result<seq<int>, DiscoveryError>)
    ensures r == ChatList(updates)
  {
    if !updates.ok || updates.result.None? {
      return Ok([]);
    }
    var us := updates.result.value;
    var chatIds: seq<int> := [];
    for i := 0 to |us|
      invariant WellFormed(us[..i])
      invariant chatIds == Distinct(EligibleIds(us[..i]))
    {
      var u := us[i];
      WellFormedSnoc(us, i);
      if u.message.Some? && u.message.value.from.Some? && u.message.value.from.value.isBot != Some(true) {
        if u.message.value.chat.None? {
          assert !WellFormed(us) by {
            assert Eligible(us[i]) && us[i].message.value.chat.None?;
          }
          return Err(MissingChat);
        }
        var id := u.message.value.chat.value;
        DistinctSnoc(EligibleIds(us[..i]), id);
        if id !in chatIds {
          chatIds := chatIds + [id];
        }
      }
    }
    assert us[..|us|] == us;
    r := Ok(chatIds);
  }

  /** The ids after one more update. */
  lemma WellFormedSnoc(us: seq<Update>, i: nat)
    requires i < |us| && WellFormed(us[..i])
    ensures Eligible(us[i]) && us[i].message.value.chat.Some? ==>
      WellFormed(us[..i + 1]) &&
      EligibleIds(us[..i + 1]) == EligibleIds(us[..i]) + [us[i].message.value.chat.value]
    ensures !Eligible(us[i]) ==>
      WellFormed(us[..i + 1]) && EligibleIds(us[..i + 1]) == EligibleIds(us[..i])
  {
    assert us[..i + 1][..i] == us[..i];
  }

  lemma DistinctSnoc(xs: seq<int>, x: int)
    ensures Distinct(xs + [x]) ==
      if x in Distinct(xs) then Distinct(xs) else Distinct(xs) + [x]
  {
    assert (xs + [x])[..|xs|] == xs;
  }

  lemma FirstIndexSnoc(xs: seq<int>, y: int, z: int)
    requires z in xs + [y]
    ensures z in xs ==> FirstIndex(xs + [y], z) == FirstIndex(xs, z)
    ensures z !in xs ==> FirstIndex(xs + [y], z) == |xs|
  {
    assert forall m :: 0 <= m < |xs| ==> (xs + [y])[m] == xs[m];
    if z in xs {
      var f := FirstIndex(xs, z);
      assert (xs + [y])[f] == z;
    }
  }

  /** The values kept by `Distinct` come in the order of their first
      appearance in `xs`. */
  lemma {:induction false} DistinctOrder(xs: seq<int>)
    ensures forall i, j :: 0 <= i < j < |Distinct(xs)| ==>
      FirstIndex(xs, Distinct(xs)[i]) < FirstIndex(xs, Distinct(xs)[j])
    decreases |xs|
  {
    if xs != [] {
      var n := |xs| - 1;
      var ys, y := xs[..n], xs[n];
      assert xs == ys + [y];
      DistinctOrder(ys);
      DistinctSnoc(ys, y);
      var prev, r := Distinct(ys), Distinct(xs);
      forall i, j | 0 <= i < j < |r|
        ensures FirstIndex(xs, r[i]) < FirstIndex(xs, r[j])
      {
        FirstIndexSnoc(ys, y, r[i]);
        FirstIndexSnoc(ys, y, r[j]);
        if j == |prev| {
          assert r[i] == prev[i] && r[i] in ys;
          assert r[j] == y && y !in ys;
        } else {
          assert r[i] == prev[i] && r[j] == prev[j];
        }
      }
    }
  }

  /** The ids of the updates that pass the filter, read from the front. */
  lemma {:induction false} EligibleIdsCons(us: seq<Update>)
    requires us != [] && WellFormed(us)
    ensures WellFormed(us[1..])
    ensures EligibleIds(us) ==
      (if Eligible(us[0]) then [ChatOf(us, 0)] else []) + EligibleIds(us[1..])
    decreases |us|
  {
    assert forall i :: 0 <= i < |us| - 1 ==> us[1..][i] == us[i + 1];
    var n := |us| - 1;
    if n == 0 {
      assert us[1..] == [];
    } else {
      var front := us[..n];
      assert forall i :: 0 <= i < n ==> front[i] == us[i];
      EligibleIdsCons(front);
      assert front[1..] == us[1..][..n - 1];
      assert us[1..][n - 1] == us[n];
    }
  }

  /** A chat whose id comes first among the collected ids also has the
      earlier first update. */
  lemma {:induction false} FirstUpdateOrder(us: seq<Update>, x: int, y: int)
    requires WellFormed(us) && x in EligibleIds(us) && y in EligibleIds(us)
    ensures FirstIndex(EligibleIds(us), x) < FirstIndex(EligibleIds(us), y) ==>
      FirstUpdate(us, x) < FirstUpdate(us, y)
    decreases |us|
  {
    EligibleIdsCons(us);
    var ids, rest := EligibleIds(us), EligibleIds(us[1..]);
    if Eligible(us[0]) && (ChatOf(us, 0) == x || ChatOf(us, 0) == y) {
      if ChatOf(us, 0) == x {
        assert ids[0] == x && Carries(us[0], x);
      } else {
        assert ids[0] == y;
      }
    } else {
      assert !Carries(us[0], x) && !Carries(us[0], y);
      if Eligible(us[0]) {
        assert ids == [ChatOf(us, 0)] + rest;
        assert ids[0] != x && ids[0] != y && ids[1..] == rest;
      } else {
        assert ids == rest;
      }
      FirstUpdateOrder(us[1..], x, y);
    }
  }

  /** What getAllChats finds in an `ok` reply with a `result`: it fails
      exactly when an update that passes the filter has no chat, and
      otherwise lists each chat of such an update once, in the order the
      chats first appear among the updates. */
  lemma ChatsFound(updates: Updates)
    requires updates.ok && updates.result.Some?
    ensures ChatList(updates).Err? <==>
      exists i :: 0 <= i < |updates.result.value| && Eligible(updates.result.value[i]) &&
        updates.result.value[i].message.value.chat.None?
    ensures ChatList(updates).Ok? ==>
      var us, r := updates.result.value, ChatList(updates).value;
      && (forall x :: x in r <==> exists i :: 0 <= i < |us| && Carries(us[i], x))
      && (forall i, j :: 0 <= i < j < |r| ==> r[i] != r[j])
      && (forall i, j :: 0 <= i < j < |r| ==>
            FirstIndex(EligibleIds(us), r[i]) < FirstIndex(EligibleIds(us), r[j]))
      && (forall i, j :: 0 <= i < j < |r| ==> FirstUpdate(us, r[i]) < FirstUpdate(us, r[j]))
  {
    var us := updates.result.value;
    if WellFormed(us) {
      var ids := EligibleIds(us);
      var r := Distinct(ids);
      DistinctOrder(ids);
      forall i, j | 0 <= i < j < |r|
        ensures FirstUpdate(us, r[i]) < FirstUpdate(us, r[j])
      {
        FirstUpdateOrder(us, r[i], r[j]);
      }
    }
  }
}

=== FILE: Dispatch.dfy ===
/** The delivery loop of the handler: every part of the message to every
    subscriber, in order, with the pauses the handler takes between calls. */
module Dispatch {
  import opened Text

  /** What the handler does, in order: the `getUpdates` call, a
      `sendMessage` call (with whether the bot platform accepted it), or a
      pause of `ms` milliseconds. */
  datatype Event =
    | FetchUpdates
    | Send(chat: int, part: nat, text: string, delivered: bool)
    | Sleep(ms: nat)

  /** The bot platform's answer to sending part `i` of the message to a
      chat: true when the reply is `ok`, false when it is not or when the
      request fails, both of which make `sendMessage` throw. */
  type Oracle = (int, nat) -> bool

  /** The first of the parts `i` up to `n` that `chat` refuses, or `n`. */
  function FirstRefused(accepts: Oracle, chat: int, i: nat, n: nat): (r: nat)
    requires i <= n
    ensures i <= r <= n
    ensures forall k :: i <= k < r ==> accepts(chat, k)
    ensures r < n ==> !accepts(chat, r)
    decreases n - i
  {
    if i == n || !accepts(chat, i) then i else FirstRefused(accepts, chat, i + 1, n)
  }

  /** Every one of the `n` parts reaches `chat`. */
  predicate Delivered(accepts: Oracle, chat: int, n: nat)
  {
    forall k :: 0 <= k < n ==> accepts(chat, k)
  }

  /** How many parts are sent to `chat`: all of them up to and including the
      first one refused. */
  function Attempted(accepts: Oracle, chat: int, n: nat): nat
  {
    var f := FirstRefused(accepts, chat, 0, n);
    if f < n then f + 1 else n
  }

  /** Sending part `i`, after a one-second pause unless it is the first. */
  function Attempt(accepts: Oracle, chat: int, parts: seq<string>, i: nat): seq<Event>
    requires i < |parts|
  {
    (if i > 0 then [Sleep(1000)] else []) + [Send(chat, i, parts[i], accepts(chat, i))]
  }

  /** Sending the first `j` parts. */
  function Attempts(accepts: Oracle, chat: int, parts: seq<string>, j: nat): seq<Event>
    requires j <= |parts|
  {
    if j == 0 then [] else Attempts(accepts, chat, parts, j - 1) + Attempt(accepts, chat, parts, j - 1)
  }

  /** Everything done for one chat: its parts up to the first refused one,
      then a pause of 100 ms whether or not they all got through. */
  function ChatTrace(accepts: Oracle, chat: int, parts: seq<string>): seq<Event>
  {
    Attempts(accepts, chat, parts, Attempted(accepts, chat, |parts|)) + [Sleep(100)]
  }

  /** Everything done for `chats`, one chat after the other. */
  function Trace(accepts: Oracle, chats: seq<int>, parts: seq<string>): seq<Event>
  {
    if chats == [] then []
    else Trace(accepts, chats[..|chats| - 1], parts) + ChatTrace(accepts, chats[|chats| - 1], parts)
  }

  /** How many of `chats` receive all `n` parts. */
  function SentCount(accepts: Oracle, chats: seq<int>, n: nat): nat
  {
    if chats == [] then 0
    else SentCount(accepts, chats[..|chats| - 1], n) + (if Delivered(accepts, chats[|chats| - 1], n) then 1 else 0)
  }

  /** The send loop of the handler: for each chat, the parts in order, a
      pause before every part but the first, the first refused part ending
      that chat's turn (the `catch` around the inner loop), and a pause
      after every chat. `successCount` counts the chats whose inner loop
      ran to the end. */
  method Broadcast(chats: seq<int>, parts: seq<string>, accepts: Oracle)
    returns (successCount: nat, events: seq<Event>)
    ensures successCount == SentCount(accepts, chats, |parts|)
    ensures events == Trace(accepts, chats, parts)
  {
    successCount := 0;
    events := [];
    for c := 0 to |chats|
      invariant successCount == SentCount(accepts, chats[..c], |parts|)
      invariant events == Trace(accepts, chats[..c], parts)
    {
      var chatId := chats[c];
      ghost var before := events;
      var delivered := true;
      var i := 0;
      while i < |parts| && delivered
        invariant i <= |parts|
        invariant delivered ==> FirstRefused(accepts, chatId, 0, |parts|) >= i
        invariant !delivered ==> 1 <= i && FirstRefused(accepts, chatId, 0, |parts|) == i - 1
        invariant events == before + Attempts(accepts, chatId, parts, i)
      {
        if i > 0 {
          events := events + [Sleep(1000)];
        }
        var ok := accepts(chatId, i);
        events := events + [Send(chatId, i, parts[i], ok)];
        AttemptStep(accepts, chatId, parts, i, before);
        if !ok {
          delivered := false;
        }
        i := i + 1;
      }
      InnerExit(accepts, chatId, |parts|, i, delivered);
      if delivered {
        successCount := successCount + 1;
      }
      AppendAssoc(before, Attempts(accepts, chatId, parts, i), [Sleep(100)]);
      events := events + [Sleep(100)];
      ChatStep(accepts, chats, parts, c);
    }
    assert chats[..|chats|] == chats;
  }

  lemma AttemptStep(accepts: Oracle, chat: int, parts: seq<string>, i: nat, before: seq<Event>)
    requires i < |parts|
    ensures i > 0 ==>
      before + Attempts(accepts, chat, parts, i) + [Sleep(1000)] + [Send(chat, i, parts[i], accepts(chat, i))]
      == before + Attempts(accepts, chat, parts, i + 1)
    ensures i == 0 ==>
      before + Attempts(accepts, chat, parts, i) + [Send(chat, i, parts[i], accepts(chat, i))]
      == before + Attempts(accepts, chat, parts, i + 1)
  {
  }

  lemma ChatStep(accepts: Oracle, chats: seq<int>, parts: seq<string>, c: nat)
    requires c < |chats|
    ensures Trace(accepts, chats[..c + 1], parts) == Trace(accepts, chats[..c], parts) + ChatTrace(accepts, chats[c], parts)
    ensures SentCount(accepts, chats[..c + 1], |parts|) ==
      SentCount(accepts, chats[..c], |parts|) + (if Delivered(accepts, chats[c], |parts|) then 1 else 0)
  {
    assert chats[..c + 1][..c] == chats[..c];
  }

  /** Where the inner loop stops: after the attempted parts, having
      delivered them all exactly when no part was refused. */
  lemma InnerExit(accepts: Oracle, chat: int, n: nat, i: nat, delivered: bool)
    requires i <= n && !(i < n && delivered)
    requires delivered ==> FirstRefused(accepts, chat, 0, n) >= i
    requires !delivered ==> 1 <= i && FirstRefused(accepts, chat, 0, n) == i - 1
    ensures i == Attempted(accepts, chat, n)
    ensures delivered <==> Delivered(accepts, chat, n)
  {
  }

  /** Part `i` is sent to `chat` exactly when it exists and every part
      before it got through. */
  lemma PartAttempted(accepts: Oracle, chat: int, n: nat, i: nat)
    ensures i < Attempted(accepts, chat, n) <==> i < n && forall k :: 0 <= k < i ==> accepts(chat, k)
  {
    var f := FirstRefused(accepts, chat, 0, n);
    if f < i && f < n {
      assert !accepts(chat, f);
    }
  }

  /** The sends among the first `j` parts: each part below `j`, with its
      text and the platform's answer, and nothing else. */
  lemma {:induction false} AttemptsSends(accepts: Oracle, chat: int, parts: seq<string>, j: nat)
    requires j <= |parts|
    ensures forall e :: e in Attempts(accepts, chat, parts, j) && e.Send? ==>
      e.chat == chat && e.part < j && e.text == parts[e.part] && e.delivered == accepts(chat, e.part)
    ensures forall i :: 0 <= i < j ==> Send(chat, i, parts[i], accepts(chat, i)) in Attempts(accepts, chat, parts, j)
  {
    if j > 0 {
      AttemptsSends(accepts, chat, parts, j - 1);
      var prev := Attempts(accepts, chat, parts, j - 1);
      var last := Attempt(accepts, chat, parts, j - 1);
      assert Attempts(accepts, chat, parts, j) == prev + last;
      assert Send(chat, j - 1, parts[j - 1], accepts(chat, j - 1)) in last;
      assert forall e :: e in last && e.Send? ==> e == Send(chat, j - 1, parts[j - 1], accepts(chat, j - 1));
    }
  }

  /** What one chat is sent: part `i` goes out, with its own text, exactly
      when every earlier part got through, and no other message is sent. */
  lemma ChatSends(accepts: Oracle, chat: int, parts: seq<string>)
    ensures forall e :: e in ChatTrace(accepts, chat, parts) && e.Send? ==>
      e.chat == chat && e.part < |parts| && e.text == parts[e.part] && e.delivered == accepts(chat, e.part)
    ensures forall i :: 0 <= i < |parts| ==>
      (Send(chat, i, parts[i], accepts(chat, i)) in ChatTrace(accepts, chat, parts) <==>
       forall k :: 0 <= k < i ==> accepts(chat, k))
  {
    var n := |parts|;
    var a := Attempted(accepts, chat, n);
    AttemptsSends(accepts, chat, parts, a);
    forall i | 0 <= i < n
      ensures Send(chat, i, parts[i], accepts(chat, i)) in ChatTrace(accepts, chat, parts) <==>
        forall k :: 0 <= k < i ==> accepts(chat, k)
    {
      PartAttempted(accepts, chat, n, i);
    }
  }

  /** At most every chat receives the whole message, and all of them do
      exactly when no chat refuses a part. */
  lemma {:induction false} SentCountBound(accepts: Oracle, chats: seq<int>, n: nat)
    ensures SentCount(accepts, chats, n) <= |chats|
    ensures SentCount(accepts, chats, n) == |chats| <==>
      forall c :: 0 <= c < |chats| ==> Delivered(accepts, chats[c], n)
  {
    if chats != [] {
      var m := |chats| - 1;
      SentCountBound(accepts, chats[..m], n);
      assert forall c :: 0 <= c < m ==> chats[..m][c] == chats[c];
    }
  }

  /** The chats that part 0 is sent to, in the order of the events. */
  function FirstSends(events: seq<Event>): seq<int>
  {
    if events == [] then []
    else
      var e := events[|events| - 1];
      FirstSends(events[..|events| - 1]) + (if e.Send? && e.part == 0 then [e.chat] else [])
  }

  lemma {:induction false} FirstSendsAppend(a: seq<Event>, b: seq<Event>)
    ensures FirstSends(a + b) == FirstSends(a) + FirstSends(b)
    decreases |b|
  {
    if b == [] {
      assert a + b == a;
    } else {
      var m := |b| - 1;
      assert (a + b)[..|a| + m] == a + b[..m];
      FirstSendsAppend(a, b[..m]);
    }
  }

  lemma {:induction false} AttemptsFirstSends(accepts: Oracle, chat: int, parts: seq<string>, j: nat)
    requires j <= |parts|
    ensures FirstSends(Attempts(accepts, chat, parts, j)) == if j > 0 then [chat] else []
  {
    if j > 0 {
      AttemptsFirstSends(accepts, chat, parts, j - 1);
      FirstSendsAppend(Attempts(accepts, chat, parts, j - 1), Attempt(accepts, chat, parts, j - 1));
      var send := [Send(chat, j - 1, parts[j - 1], accepts(chat, j - 1))];
      if j > 1 {
        FirstSendsAppend([Sleep(1000)], send);
        assert Attempt(accepts, chat, parts, j - 1) == [Sleep(1000)] + send;
        assert FirstSends([Sleep(1000)]) == [];
      } else {
        assert Attempt(accepts, chat, parts, j - 1) == send;
      }
      assert FirstSends(send) == (if j - 1 == 0 then [chat] else []);
    }
  }

  /** Every chat is attempted, in the order of the list: the first part of
      the message goes to each chat once, chat after chat. */
  lemma {:induction false} ChatsInOrder(accepts: Oracle, chats: seq<int>, parts: seq<string>)
    requires parts != []
    ensures FirstSends(Trace(accepts, chats, parts)) == chats
  {
    if chats != [] {
      var m := |chats| - 1;
      var chat := chats[m];
      ChatsInOrder(accepts, chats[..m], parts);
      var a := Attempted(accepts, chat, |parts|);
      PartAttempted(accepts, chat, |parts|, 0);
      AttemptsFirstSends(accepts, chat, parts, a);
      FirstSendsAppend(Attempts(accepts, chat, parts, a), [Sleep(100)]);
      assert FirstSends([Sleep(100)]) == [];
      FirstSendsAppend(Trace(accepts, chats[..m], parts), ChatTrace(accepts, chat, parts));
      assert chats[..m] + [chat] == chats;
    }
  }
}

=== FILE: Formatter.dfy ===
/** The rendering of a submitted form as the HTML text of a bot message
    (`formatMessage`). User text is embedded as it is, without escaping. */
module Formatter {
  import opened Wrappers
  import opened Text
  import opened Chunker

  /** One answered product: the entries of `formData.items`, in the order
      `Object.entries` lists them. */
  datatype Item = Item(
    code: string,
    name: string,
    timeView: string,
    timeTyping: string,
    adsCopy: string,
    analysis: string,
    landing: string,
    video: string)

  /** `formData.summary`, its values already converted to text. */
  datatype Summary = Summary(totalView: string, totalTyping: string, itemsCount: string)

  /** The parsed request body. The three fields the code dereferences can be
      absent; the others are the text the template literal makes of them. */
  datatype FormData = FormData(
    fio: string,
    telegram: string,
    submittedAt: string,
    summary: Option<Summary>,
    items: Option<seq<Item>>,
    pageUrl: string,
    userAgent: Option<string>)

  /** The `TypeError` that stops formatting, by the first value it trips on. */
  datatype FormatError = NullForm | MissingSummary | MissingItems | MissingUserAgent

  // The templates appended by `formatMessage`, one function per `+=`.

  const Banner: string := "<b>📋 НОВИЙ КАНДИДАТ - FB ADS TEST</b>\n\n"

  function CandidateLine(fio: string): string
  {
    "<b>👤 Кандидат:</b> <code>" + fio + "</code>\n"
  }

  function TelegramLine(telegram: string): string
  {
    "<b>📱 Telegram:</b> " + telegram + "\n"
  }

  function DateLine(submittedAt: string): string
  {
    "<b>🕐 Дата проходження:</b> " + submittedAt + "\n\n"
  }

  const StatsTitle: string := "<b>⏱ Статистика часу:</b>\n"

  function ViewLine(s: Summary): string
  {
    "• Загальний час перегляду: " + s.totalView + "\n"
  }

  function TypingLine(s: Summary): string
  {
    "• Загальний час набору: " + s.totalTyping + "\n"
  }

  function CountLine(s: Summary): string
  {
    "• Кількість товарів: " + s.itemsCount + "\n\n"
  }

  /** What follows the heading on the heading line: the closing tag, a line
      break, the double rule and a line break. */
  const HeadingClose: string := "</b>\n" + Rule + "\n"

  /** The heading line: the opening tag, the heading, the closing tag and the rule. */
  const HeadingLine: string := "<b>" + Heading + HeadingClose

  function TitleLine(it: Item): string
  {
    "\n<b>" + it.code + " - " + it.name + "</b>\n"
  }

  function TimesLine(it: Item): string
  {
    "⏱ Час: перегляд " + it.timeView + " | набір " + it.timeTyping + "\n"
  }

  function AdsLines(it: Item): string
  {
    "\n<b>📢 РЕКЛАМНИЙ ТЕКСТ:</b>\n<code>" + it.adsCopy + "</code>\n"
  }

  function AnalysisLines(it: Item): string
  {
    "\n<b>🔍 АНАЛІЗ ТА РЕКОМЕНДАЦІЇ:</b>\n<code>" + it.analysis + "</code>\n"
  }

  function LinksLines(it: Item): string
  {
    "\n<b>🔗 Матеріали:</b>\n• <a href=\"" + it.landing + "\">Лендінг</a> | <a href=\"" +
    it.video + "\">Відео</a>\n"
  }

  /** The line that closes an item block: the divider between two line breaks. */
  const DividerLine: string := "\n" + Divider + "\n"

  const TechTitle: string := "\n<b>💻 Технічні дані:</b>\n"

  function PageLine(pageUrl: string): string
  {
    "• Сторінка: " + pageUrl + "\n"
  }

  /** `user_agent.includes('Mobile') ? '📱 Mobile' : '💻 Desktop'`. */
  function DeviceLabel(userAgent: string): (r: string)
    ensures r == "📱 Mobile" <==> Contains(userAgent, "Mobile")
    ensures r == "💻 Desktop" <==> !Contains(userAgent, "Mobile")
  {
    if Contains(userAgent, "Mobile") then "📱 Mobile" else "💻 Desktop"
  }

  function DeviceLine(userAgent: string): string
  {
    "• Пристрій: " + DeviceLabel(userAgent) + "\n"
  }

  /** The candidate and statistics block, up to the answers heading. */
  function Intro(form: FormData, s: Summary): string
  {
    Banner + CandidateLine(form.fio) + TelegramLine(form.telegram) + DateLine(form.submittedAt) +
    StatsTitle + ViewLine(s) + TypingLine(s) + CountLine(s)
  }

  /** An item block without its closing divider line. */
  function Body(it: Item): string
  {
    TitleLine(it) + TimesLine(it) + AdsLines(it) + AnalysisLines(it) + LinksLines(it)
  }

  /** The block of one item, closed by the divider on a line of its own. */
  function ItemBlock(it: Item): string
  {
    Body(it) + DividerLine
  }

  /** The blocks of `items`, in order. */
  function Blocks(items: seq<Item>): string
  {
    Concat(Map(ItemBlock, items))
  }

  /** The technical data block that ends the message. */
  function Footer(pageUrl: string, userAgent: string): string
  {
    TechTitle + PageLine(pageUrl) + DeviceLine(userAgent)
  }

  /** The whole message for a form whose dereferenced fields are present. */
  function Render(form: FormData, s: Summary, items: seq<Item>, userAgent: string): string
  {
    Intro(form, s) + HeadingLine + Blocks(items) + Footer(form.pageUrl, userAgent)
  }

  /** formatMessage(formData): the message, or the first missing value the
      code dereferences, in the order it does so. */
  function Format(data: Option<FormData>): Result<string, FormatError>
  {
    match data
    case None => Err(NullForm)
    case Some(form) =>
      if form.summary.None? then Err(MissingSummary)
      else if form.items.None? then Err(MissingItems)
      else if form.userAgent.None? then Err(MissingUserAgent)
      else Ok(Render(form, form.summary.value, form.items.value, form.userAgent.value))
  }

  /** formatMessage fails exactly when the form, its summary, its items or
      the user agent is missing, and reports the first of them it reads. */
  lemma FormatFails(data: Option<FormData>)
    ensures Format(data).Err? <==>
      data.None? || data.value.summary.None? || data.value.items.None? || data.value.userAgent.None?
    ensures Format(data) == Err(NullForm) <==> data.None?
    ensures Format(data) == Err(MissingSummary) <==> data.Some? && data.value.summary.None?
    ensures Format(data) == Err(MissingItems) <==>
      data.Some? && data.value.summary.Some? && data.value.items.None?
  {
  }

  /** The blocks of one more item. */
  lemma BlocksSnoc(items: seq<Item>, i: nat)
    requires i < |items|
    ensures Blocks(items[..i + 1]) == Blocks(items[..i]) + ItemBlock(items[i])
  {
    MapSnoc(ItemBlock, items, i);
    ConcatSnoc(Map(ItemBlock, items[..i]), ItemBlock(items[i]));
  }

  lemma BlocksAll(items: seq<Item>)
    ensures Blocks(items[..|items|]) == Blocks(items)
  {
    TakeAll(items);
  }

  /** Appending the templates of an item one after another appends its block. */
  lemma BlockAppend(message: string, it: Item)
    ensures message + TitleLine(it) + TimesLine(it) + AdsLines(it) + AnalysisLines(it) +
      LinksLines(it) + DividerLine == message + ItemBlock(it)
  {
    var t1, t2, t3, t4, t5 := TitleLine(it), TimesLine(it), AdsLines(it), AnalysisLines(it), LinksLines(it);
    AppendAssoc(message, Body(it), DividerLine);
    AppendAssoc(message, t1 + t2 + t3 + t4, t5);
    AppendAssoc(message, t1 + t2 + t3, t4);
    AppendAssoc(message, t1 + t2, t3);
    AppendAssoc(message, t1, t2);
  }

  /** Appending the lines of the technical data block appends the block. */
  lemma FooterAppend(message: string, pageUrl: string, userAgent: string)
    ensures message + TechTitle + PageLine(pageUrl) + DeviceLine(userAgent) ==
      message + Footer(pageUrl, userAgent)
  {
    AppendAssoc(message, TechTitle + PageLine(pageUrl), DeviceLine(userAgent));
    AppendAssoc(message, TechTitle, PageLine(pageUrl));
  }

  /** The `for (const [code, item] of Object.entries(formData.items))` loop of
      formatMessage: each item appends its block, template by template. */
  method AppendBlocks(start: string, items: seq<Item>) returns (message: string)
    ensures message == start + Blocks(items)
  {
    message := start;
    for i := 0 to |items|
      invariant message == start + Blocks(items[..i])
    {
      var it := items[i];
      BlockAppend(message, it);
      AppendAssoc(start, Blocks(items[..i]), ItemBlock(it));
      BlocksSnoc(items, i);
      message := message + TitleLine(it);
      message := message + TimesLine(it);
      message := message + AdsLines(it);
      message := message + AnalysisLines(it);
      message := message + LinksLines(it);
      message := message + DividerLine;
    }
    BlocksAll(items);
  }

  /** formatMessage: the message is built by appending to it, one item block
      per entry of `formData.items`. A `null` body fails on `formData.fio`,
      and a missing summary, item list or user agent fails where it is first
      dereferenced. */
  method FormatMessage(data: Option<FormData>) returns (r: Result<string, FormatError>)
    ensures r == Format(data)
  {
    if data.None? {
      return Err(NullForm);
    }
    var form := data.value;
    var message := Banner;
    message := message + CandidateLine(form.fio);
    message := message + TelegramLine(form.telegram);
    message := message + DateLine(form.submittedAt);
    message := message + StatsTitle;
    if form.summary.None? {
      return Err(MissingSummary);
    }
    var s := form.summary.value;
    message := message + ViewLine(s);
    message := message + TypingLine(s);
    message := message + CountLine(s);
    message := message + HeadingLine;
    if form.items.None? {
      return Err(MissingItems);
    }
    var items := form.items.value;
    message := AppendBlocks(message, items);
    message := message + TechTitle;
    message := message + PageLine(form.pageUrl);
    if form.userAgent.None? {
      return Err(MissingUserAgent);
    }
    FooterAppend(Intro(form, s) + HeadingLine + Blocks(items), form.pageUrl, form.userAgent.value);
    message := message + DeviceLine(form.userAgent.value);
    r := Ok(message);
  }

  /** The blocks of an item followed by more items. */
  lemma BlocksCons(it: Item, rest: seq<Item>)
    ensures Blocks([it] + rest) == ItemBlock(it) + Blocks(rest)
  {
    MapCons(ItemBlock, it, rest);
    ConcatCons(ItemBlock(it), Map(ItemBlock, rest));
  }

  // How splitMessage sees a formatted message.

  /** None of the texts written before the heading holds the heading's first
      character, so the first heading of the message is the one formatMessage
      writes. */
  predicate Unmarked(form: FormData, s: Summary)
  {
    '📝' !in form.fio && '📝' !in form.telegram && '📝' !in form.submittedAt &&
    '📝' !in s.totalView && '📝' !in s.totalTyping && '📝' !in s.itemsCount
  }

  /** No text of an item holds the divider's character. */
  predicate Undivided(it: Item)
  {
    '─' !in it.code && '─' !in it.name && '─' !in it.timeView && '─' !in it.timeTyping &&
    '─' !in it.adsCopy && '─' !in it.analysis && '─' !in it.landing && '─' !in it.video
  }

  lemma IntroUnmarked(form: FormData, s: Summary)
    requires Unmarked(form, s)
    ensures Heading[0] !in Intro(form, s) + "<b>"
  {
    UnmarkedHead(form);
    UnmarkedStats(form, s);
  }

  lemma UnmarkedHead(form: FormData)
    requires '📝' !in form.fio && '📝' !in form.telegram
    ensures '📝' !in Banner + CandidateLine(form.fio) + TelegramLine(form.telegram)
  {
  }

  lemma UnmarkedStats(form: FormData, s: Summary)
    requires Unmarked(form, s)
    ensures '📝' !in DateLine(form.submittedAt) + StatsTitle + ViewLine(s) + TypingLine(s) + CountLine(s) + "<b>"
  {
    UnmarkedDate(form, s);
    UnmarkedCounts(s);
  }

  lemma UnmarkedDate(form: FormData, s: Summary)
    requires '📝' !in form.submittedAt && '📝' !in s.totalView
    ensures '📝' !in DateLine(form.submittedAt) + StatsTitle + ViewLine(s)
  {
  }

  lemma UnmarkedCounts(s: Summary)
    requires '📝' !in s.totalTyping && '📝' !in s.itemsCount
    ensures '📝' !in TypingLine(s) + CountLine(s) + "<b>"
  {
  }

  /** The message regrouped around its heading. */
  lemma RenderAround(form: FormData, s: Summary, items: seq<Item>, userAgent: string)
    ensures Render(form, s, items, userAgent) ==
      Intro(form, s) + "<b>" + Heading + (HeadingClose + Blocks(items) + Footer(form.pageUrl, userAgent))
  {
    var intro, blocks, footer := Intro(form, s), Blocks(items), Footer(form.pageUrl, userAgent);
    AppendAssoc(intro, "<b>" + Heading, HeadingClose);
    AppendAssoc(intro, "<b>", Heading);
    AppendAssoc(intro + "<b>" + Heading, HeadingClose + blocks, footer);
    AppendAssoc(intro + "<b>" + Heading, HeadingClose, blocks);
  }

  /** Where splitMessage cuts a formatted message: the heading it looks for is
      the one inside the heading line, so part 0 is the intro followed by the
      opening tag, the heading and the rule, and the items section starts
      with the heading again and runs to the end of the message. */
  lemma RenderLayout(form: FormData, s: Summary, items: seq<Item>, userAgent: string)
    requires Unmarked(form, s)
    ensures HeaderEnd(Render(form, s, items, userAgent)) == |Intro(form, s)| + 3
    ensures Header(Render(form, s, items, userAgent)) == Intro(form, s) + "<b>"
    ensures FirstPart(Render(form, s, items, userAgent)) == Intro(form, s) + "<b>" + Heading + "\n" + Rule
    ensures ItemsSection(Render(form, s, items, userAgent)) ==
      Heading + (HeadingClose + Blocks(items) + Footer(form.pageUrl, userAgent))
  {
    var m := Render(form, s, items, userAgent);
    var pre := Intro(form, s) + "<b>";
    var rest := HeadingClose + Blocks(items) + Footer(form.pageUrl, userAgent);
    RenderAround(form, s, items, userAgent);
    IntroUnmarked(form, s);
    FirstOccurrenceAfter(pre, Heading, rest);
    AppendAssoc(pre, Heading, rest);
    CutAt(m, pre, rest);
  }

  lemma RenderSection(form: FormData, s: Summary, items: seq<Item>, userAgent: string)
    requires Unmarked(form, s)
    ensures ItemsSection(Render(form, s, items, userAgent)) ==
      Heading + HeadingClose + Blocks(items) + Footer(form.pageUrl, userAgent)
  {
    RenderLayout(form, s, items, userAgent);
    AppendAssoc(Heading, HeadingClose + Blocks(items), Footer(form.pageUrl, userAgent));
    AppendAssoc(Heading, HeadingClose, Blocks(items));
  }

  /** The pieces a formatted message splits into at the dividers, when no text
      holds the divider's character: the heading with the first item's block,
      then each further item's block, and the technical data block last, each
      without the divider that closed the block before it. */
  function Cells(items: seq<Item>, first: string, last: string): (r: seq<string>)
    ensures |r| == |items| + 1
    decreases |items|
  {
    if items == [] then [first + last]
    else [first + Body(items[0]) + "\n"] + Cells(items[1..], "\n", last)
  }

  lemma Regroup(f: string, b: string, n: string, d: string, bs: string, l: string)
    ensures f + (b + (n + d + n) + bs) + l == f + b + n + d + (n + bs + l)
  {
  }

  /** Joining the cells with the divider gives back the blocks between `first` and `last`. */
  lemma {:induction false} JoinCells(items: seq<Item>, first: string, last: string)
    ensures Join(Cells(items, first, last), Divider) == first + Blocks(items) + last
    decreases |items|
  {
    if items == [] {
      assert Map(ItemBlock, items) == [];
      AppendEmpty(first);
    } else {
      var it, rest := items[0], items[1..];
      assert items == [it] + rest;
      BlocksCons(it, rest);
      JoinCells(rest, "\n", last);
      JoinCons(first + Body(it) + "\n", Cells(rest, "\n", last), Divider);
      Regroup(first, Body(it), "\n", Divider, Blocks(rest), last);
    }
  }

  lemma BodyUndivided(it: Item)
    requires Undivided(it)
    ensures '─' !in Body(it) + "\n"
  {
    UndividedTitle(it);
    UndividedAnswers(it);
    UndividedLinks(it);
  }

  lemma UndividedTitle(it: Item)
    requires Undivided(it)
    ensures '─' !in TitleLine(it) + TimesLine(it)
  {
  }

  lemma UndividedAnswers(it: Item)
    requires Undivided(it)
    ensures '─' !in AdsLines(it) + AnalysisLines(it)
  {
  }

  lemma UndividedLinks(it: Item)
    requires Undivided(it)
    ensures '─' !in LinksLines(it) + "\n"
  {
  }

  lemma FooterUndivided(pageUrl: string, userAgent: string)
    requires '─' !in pageUrl
    ensures '─' !in Footer(pageUrl, userAgent)
  {
    UndividedPage(pageUrl);
    UndividedDevice(userAgent);
  }

  lemma UndividedPage(pageUrl: string)
    requires '─' !in pageUrl
    ensures '─' !in TechTitle + PageLine(pageUrl)
  {
  }

  lemma UndividedDevice(userAgent: string)
    ensures '─' !in DeviceLine(userAgent)
  {
  }

  lemma HeadingUndivided()
    ensures '─' !in Heading + HeadingClose
  {
  }

  /** No cell holds the divider's first character. */
  lemma {:induction false} CellsUndivided(items: seq<Item>, first: string, last: string)
    requires forall i :: 0 <= i < |items| ==> Undivided(items[i])
    requires '─' !in first && '─' !in last
    ensures forall i :: 0 <= i < |items| + 1 ==> Divider[0] !in Cells(items, first, last)[i]
    decreases |items|
  {
    assert Divider[0] == '─';
    if items != [] {
      BodyUndivided(items[0]);
      CellsUndivided(items[1..], "\n", last);
    }
  }

  /** splitMessage's pieces of a formatted message are its item blocks: one
      piece per item and one more for the technical data, so no item block is
      ever cut between two parts. */
  lemma RenderPieces(form: FormData, s: Summary, items: seq<Item>, userAgent: string)
    requires Unmarked(form, s)
    requires forall i :: 0 <= i < |items| ==> Undivided(items[i])
    requires '─' !in form.pageUrl
    ensures Pieces(Render(form, s, items, userAgent)) ==
      Cells(items, Heading + HeadingClose, Footer(form.pageUrl, userAgent))
    ensures |Pieces(Render(form, s, items, userAgent))| == |items| + 1
  {
    var first, last := Heading + HeadingClose, Footer(form.pageUrl, userAgent);
    RenderSection(form, s, items, userAgent);
    JoinCells(items, first, last);
    HeadingUndivided();
    FooterUndivided(form.pageUrl, userAgent);
    CellsUndivided(items, first, last);
    SplitJoin(Cells(items, first, last), Divider);
  }
}

=== FILE: Handler.dfy ===
/** The Netlify function `send-results`: a POST carrying a filled-in survey is
    turned into one message, split into parts, and sent to every chat that
    has written to the Telegram bot. The answers of the platform, the
    environment and the bot's updates are parameters; what the handler does
    with them is the list of events it returns. */
module Handler {
  import opened Wrappers
  import opened Dispatch
  import Chunker
  import Formatter
  import Discovery

  /** `JSON.parse(event.body)`: either it throws, or it gives a value, which
      `formatMessage` reads as a form (`null` being the absent form). */
  datatype Payload = Unparsable | Parsed(form: Option<Formatter.FormData>)

  datatype Request = Request(httpMethod: string, body: Payload)

  /** The `getUpdates` call: the request fails (network error or a reply
      that is not JSON) or it gives the parsed reply. */
  datatype Fetched = FetchFailed | Reply(updates: Discovery.Updates)

  /** Why the handler answers with an error. `MethodNotAllowed`,
      `TokenNotConfigured` and `NoSubscribersFound` stand for fixed texts
      ("Method not allowed", "Telegram bot token not configured", "No
      subscribers found"); the others stand for the message of the
      exception the runtime raised. */
  datatype Failure =
    | MethodNotAllowed
    | InvalidBody
    | TokenNotConfigured
    | RequestFailed
    | MalformedUpdate
    | NoSubscribersFound
    | BadForm(cause: Formatter.FormatError)

  datatype ResponseBody = Failed(reason: Failure) | Sent(sentTo: nat, totalChats: nat)

  datatype Response = Response(statusCode: int, body: ResponseBody)

  /** `TELEGRAM_BOT_TOKEN` is set and not empty. */
  predicate Configured(token: Option<string>)
  {
    token.Some? && token.value != []
  }

  /** The handler gets as far as asking the platform for updates. */
  predicate Fetches(request: Request, token: Option<string>)
  {
    request.httpMethod == "POST" && request.body.Parsed? && Configured(token)
  }

  /** The handler has subscribers to write to: the updates were fetched and
      name at least one chat. */
  predicate Subscribed(request: Request, token: Option<string>, fetched: Fetched)
  {
    && Fetches(request, token)
    && fetched.Reply?
    && Discovery.ChatList(fetched.updates).Ok?
    && Discovery.ChatList(fetched.updates).value != []
  }

  /** What `splitMessage` makes of a message: the message itself when it
      fits in one Telegram message, otherwise the header and then the
      greedy packing of the items section's pieces, which together spell
      out the items section. */
  ghost predicate SplitInto(message: string, parts: seq<string>)
  {
    && (|message| <= Chunker.DefaultMaxLength ==> parts == [message])
    && (|message| > Chunker.DefaultMaxLength ==>
          && |parts| >= 2
          && parts[0] == Chunker.FirstPart(message)
          && Text.Concat(parts[1..]) == Chunker.ItemsSection(message)
          && exists cuts :: Chunker.Packing(Chunker.Pieces(message), Chunker.DefaultMaxLength, cuts, parts[1..]))
  }

  /** The rest of the handler once the message is formatted: split it, send
      every part to every chat, and count the chats that received all of
      it, which are at most all of them; the first part goes to each chat,
      in order. */
  method Deliver(message: string, chatIds: seq<int>, accepts: Oracle)
    returns (successCount: nat, events: seq<Event>, ghost parts: seq<string>)
    ensures SplitInto(message, parts)
    ensures events == Trace(accepts, chatIds, parts)
    ensures FirstSends(events) == chatIds
    ensures successCount == SentCount(accepts, chatIds, |parts|)
    ensures successCount <= |chatIds|
  {
    var messageParts, cuts := Chunker.SplitMessage(message, Chunker.DefaultMaxLength);
    successCount, events := Broadcast(chatIds, messageParts, accepts);
    parts := messageParts;
    SentCountBound(accepts, chatIds, |messageParts|);
    ChatsInOrder(accepts, chatIds, messageParts);
  }

  /** The handler: 405 for anything but POST; 500 when the body is not
      JSON, the token is missing, the updates cannot be fetched or read,
      nobody has subscribed or the form lacks a value the message needs;
      otherwise every part of the message to every chat and 200 with how
      many chats received all of it. Nothing is sent unless the answer is
      200, and the chats are tried in the order they were discovered. */
  method Handle(request: Request, token: Option<string>, fetched: Fetched, accepts: Oracle)
    returns (response: Response, events: seq<Event>,
             ghost chats: seq<int>, ghost message: string, ghost parts: seq<string>)
    ensures request.httpMethod != "POST" ==>
      response == Response(405, Failed(MethodNotAllowed)) && events == []
    ensures request.httpMethod == "POST" && request.body.Unparsable? ==>
      response == Response(500, Failed(InvalidBody)) && events == []
    ensures request.httpMethod == "POST" && request.body.Parsed? && !Configured(token) ==>
      response == Response(500, Failed(TokenNotConfigured)) && events == []
    ensures Fetches(request, token) ==> |events| >= 1 && events[0] == FetchUpdates
    ensures Fetches(request, token) && fetched.FetchFailed? ==>
      response == Response(500, Failed(RequestFailed)) && events == [FetchUpdates]
    ensures Fetches(request, token) && fetched.Reply? && Discovery.ChatList(fetched.updates).Err? ==>
      response == Response(500, Failed(MalformedUpdate)) && events == [FetchUpdates]
    ensures Fetches(request, token) && fetched.Reply? && Discovery.ChatList(fetched.updates) == Ok([]) ==>
      response == Response(500, Failed(NoSubscribersFound)) && events == [FetchUpdates]
    ensures Subscribed(request, token, fetched) && Formatter.Format(request.body.form).Err? ==>
      response == Response(500, Failed(BadForm(Formatter.Format(request.body.form).error))) &&
      events == [FetchUpdates]
    ensures response.statusCode == 200 <==>
      Subscribed(request, token, fetched) && Formatter.Format(request.body.form).Ok?
    ensures response.statusCode != 200 ==> forall e :: e in events ==> !e.Send?
    ensures response.statusCode == 200 ==>
      && Discovery.ChatList(fetched.updates) == Ok(chats)
      && Formatter.Format(request.body.form) == Ok(message)
      && SplitInto(message, parts)
      && events == [FetchUpdates] + Trace(accepts, chats, parts)
      && FirstSends(events) == chats
      && response.body == Sent(SentCount(accepts, chats, |parts|), |chats|)
      && response.body.sentTo <= response.body.totalChats
  {
    chats, message, parts := [], [], [];
    events := [];
    if request.httpMethod != "POST" {
      return Response(405, Failed(MethodNotAllowed)), events, chats, message, parts;
    }
    if request.body.Unparsable? {
      return Response(500, Failed(InvalidBody)), events, chats, message, parts;
    }
    var formData := request.body.form;
    if token.None? || token.value == [] {
      return Response(500, Failed(TokenNotConfigured)), events, chats, message, parts;
    }
    events := [FetchUpdates];
    if fetched.FetchFailed? {
      return Response(500, Failed(RequestFailed)), events, chats, message, parts;
    }
    var found := Discovery.GetAllChats(fetched.updates);
    if found.Err? {
      return Response(500, Failed(MalformedUpdate)), events, chats, message, parts;
    }
    var chatIds := found.value;
    if |chatIds| == 0 {
      return Response(500, Failed(NoSubscribersFound)), events, chats, message, parts;
    }
    var formatted := Formatter.FormatMessage(formData);
    if formatted.Err? {
      return Response(500, Failed(BadForm(formatted.error))), events, chats, message, parts;
    }
    var successCount, sent;
    successCount, sent, parts := Deliver(formatted.value, chatIds, accepts);
    chats, message := chatIds, formatted.value;
    events := events + sent;
    FirstSendsAppend([FetchUpdates], sent);
    assert FirstSends([FetchUpdates]) == [];
    response := Response(200, Sent(successCount, |chatIds|));
  }
}

=== FILE: Text.dfy ===
/** The JavaScript string operations the relay relies on (`repeat`, `indexOf`,
    `includes`, `substring`, `split`), on strings as sequences of characters,
    and `Join`, which puts pieces back together with a separator between
    them, the reference for the round trips with `split`. */
module Text {

  /** `n` copies of `c`, as `c.repeat(n)`. */
  function Repeat(c: char, n: nat): (r: string)
    ensures |r| == n
    ensures forall i :: 0 <= i < n ==> r[i] == c
  {
    if n == 0 then [] else [c] + Repeat(c, n - 1)
  }

  /** `pat` occurs in `s` starting at position `i`. */
  predicate OccursAt(s: string, pat: string, i: int)
  {
    0 <= i && i + |pat| <= |s| && s[i..i + |pat|] == pat
  }

  predicate Contains(s: string, pat: string)
  {
    exists i | 0 <= i <= |s| :: OccursAt(s, pat, i)
  }

  /** The first position at or after `from` where `pat` occurs, or -1. */
  function IndexOfFrom(s: string, pat: string, from: nat): (r: int)
    ensures r == -1 || (from <= r && OccursAt(s, pat, r))
    ensures r == -1 ==> forall j :: from <= j ==> !OccursAt(s, pat, j)
    ensures r != -1 ==> forall j :: from <= j < r ==> !OccursAt(s, pat, j)
    decreases |s| - from
  {
    if |s| < from + |pat| then -1
    else if s[from..from + |pat|] == pat then from
    else IndexOfFrom(s, pat, from + 1)
  }

  /** `s.indexOf(pat)`: the first occurrence of `pat` in `s`, or -1 when there is none. */
  function IndexOf(s: string, pat: string): (r: int)
    ensures r == -1 <==> !Contains(s, pat)
    ensures r != -1 ==> OccursAt(s, pat, r) && forall j :: 0 <= j < r ==> !OccursAt(s, pat, j)
  {
    IndexOfFrom(s, pat, 0)
  }

  /** Clamps a `substring` argument into `[0, len]`, as JavaScript does. */
  function Clamp(i: int, len: nat): (r: nat)
    ensures r <= len
    ensures 0 <= i <= len ==> r == i
  {
    if i < 0 then 0 else if i > len then len else i
  }

  /** `s.substring(start, end)`: both bounds are clamped into the string and
      swapped when they are out of order. */
  function Substring(s: string, start: int, end: int): (r: string)
    ensures 0 <= start <= end <= |s| ==> r == s[start..end]
    ensures start < 0 && 0 <= end <= |s| ==> r == s[..end]
    ensures end < 0 && 0 <= start <= |s| ==> r == s[..start]
  {
    var a := Clamp(start, |s|);
    var b := Clamp(end, |s|);
    if a <= b then s[a..b] else s[b..a]
  }

  /** `s.split(d)` for a non-empty separator: the pieces between successive
      non-overlapping occurrences of `d`, searched left to right. */
  function Split(s: string, d: string): (pieces: seq<string>)
    requires d != []
    ensures |pieces| >= 1
    decreases |s|
  {
    var k := IndexOf(s, d);
    if k == -1 then [s] else [s[..k]] + Split(s[k + |d|..], d)
  }

  /** No piece of a split contains the separator. */
  lemma {:induction false} SplitPiecesFree(s: string, d: string)
    requires d != []
    ensures forall i :: 0 <= i < |Split(s, d)| ==> !Contains(Split(s, d)[i], d)
    decreases |s|
  {
    var k := IndexOf(s, d);
    if k == -1 {
      SplitNone(s, d);
    } else {
      SplitStep(s, d, k);
      SplitPiecesFree(s[k + |d|..], d);
      forall j | 0 <= j ensures !OccursAt(s[..k], d, j) {
        if j + |d| <= k {
          assert s[..k][j..j + |d|] == s[j..j + |d|];
          assert !OccursAt(s, d, j);
        }
      }
    }
  }

  /** `pieces.join(d)`. */
  function Join(pieces: seq<string>, d: string): string
  {
    if |pieces| == 0 then []
    else if |pieces| == 1 then pieces[0]
    else pieces[0] + d + Join(pieces[1..], d)
  }

  /** Concatenation of a sequence of strings, left to right. */
  function Concat(parts: seq<string>): string
  {
    if parts == [] then [] else Concat(parts[..|parts| - 1]) + parts[|parts| - 1]
  }

  lemma TakeAll<T>(s: seq<T>)
    ensures s[..|s|] == s
  {
  }

  /** Appending is associative; stated on plain variables so that callers
      with long literal texts need not unfold them. */
  lemma AppendAssoc<T>(a: seq<T>, b: seq<T>, c: seq<T>)
    ensures a + (b + c) == a + b + c
  {
  }

  lemma AppendEmpty(a: string)
    ensures [] + a == a && a + [] == a
  {
  }

  /** The texts `f` makes of the elements of `xs`, in order. */
  function Map<T>(f: T -> string, xs: seq<T>): (r: seq<string>)
    ensures |r| == |xs|
    ensures forall i :: 0 <= i < |xs| ==> r[i] == f(xs[i])
  {
    seq(|xs|, i requires 0 <= i < |xs| => f(xs[i]))
  }

  lemma MapSnoc<T>(f: T -> string, xs: seq<T>, i: nat)
    requires i < |xs|
    ensures Map(f, xs[..i + 1]) == Map(f, xs[..i]) + [f(xs[i])]
  {
  }

  lemma MapCons<T>(f: T -> string, x: T, xs: seq<T>)
    ensures Map(f, [x] + xs) == [f(x)] + Map(f, xs)
  {
  }

  lemma {:induction false} ConcatCons(p: string, parts: seq<string>)
    ensures Concat([p] + parts) == p + Concat(parts)
    decreases |parts|
  {
    if parts == [] {
      assert [p] + parts == [p];
      assert [p][..0] == [];
    } else {
      var n := |parts|;
      assert ([p] + parts)[..n] == [p] + parts[..n - 1];
      ConcatCons(p, parts[..n - 1]);
    }
  }

  lemma ConcatSnoc(parts: seq<string>, p: string)
    ensures Concat(parts + [p]) == Concat(parts) + p
  {
    assert (parts + [p])[..|parts|] == parts;
  }

  /** One step of `Split`: the piece before the first separator, then the
      split of what follows it. */
  lemma SplitStep(s: string, d: string, k: int)
    requires d != [] && k == IndexOf(s, d) && k != -1
    ensures Split(s, d) == [s[..k]] + Split(s[k + |d|..], d)
  {
  }

  /** A string is what comes before an occurrence, the occurrence, and what follows it. */
  lemma Around(s: string, d: string, k: int)
    requires OccursAt(s, d, k)
    ensures s == s[..k] + d + s[k + |d|..]
  {
  }

  /** A string without the separator splits into itself. */
  lemma SplitNone(s: string, d: string)
    requires d != [] && IndexOf(s, d) == -1
    ensures Split(s, d) == [s]
  {
  }

  /** `Join` of a piece followed by at least one more. */
  lemma JoinCons(p: string, rest: seq<string>, d: string)
    requires rest != []
    ensures Join([p] + rest, d) == p + d + Join(rest, d)
  {
    assert ([p] + rest)[1..] == rest;
  }

  /** Joining the pieces of a split with the same separator gives back the string. */
  lemma {:induction false} JoinSplit(s: string, d: string)
    requires d != []
    ensures Join(Split(s, d), d) == s
    decreases |s|
  {
    var k := IndexOf(s, d);
    if k == -1 {
      SplitNone(s, d);
    } else {
      var rest := s[k + |d|..];
      SplitStep(s, d, k);
      Around(s, d, k);
      JoinSplit(rest, d);
      JoinCons(s[..k], Split(rest, d), d);
    }
  }

  /** Appending one more piece to a join adds the separator and that piece. */
  lemma {:induction false} JoinSnoc(pieces: seq<string>, p: string, d: string)
    requires pieces != []
    ensures Join(pieces + [p], d) == Join(pieces, d) + d + p
    decreases |pieces|
  {
    if |pieces| == 1 {
      assert pieces + [p] == [pieces[0], p];
    } else {
      JoinSnoc(pieces[1..], p, d);
      assert (pieces + [p])[1..] == pieces[1..] + [p];
    }
  }

  /** When the first character of `pat` does not occur in `prefix`, the first
      occurrence of `pat` in `prefix + pat + rest` is right after `prefix`. */
  lemma FirstOccurrenceAfter(prefix: string, pat: string, rest: string)
    requires pat != [] && pat[0] !in prefix
    ensures IndexOf(prefix + pat + rest, pat) == |prefix|
  {
    var s := prefix + pat + rest;
    assert OccursAt(s, pat, |prefix|) by {
      assert s[|prefix|..|prefix| + |pat|] == pat;
    }
    forall j | 0 <= j < |prefix| ensures !OccursAt(s, pat, j) {
      assert s[j] == prefix[j] != pat[0];
      assert j + |pat| <= |s| ==> s[j..j + |pat|][0] == s[j];
    }
  }

  /** When the first character of `pat` does not occur in `s`, neither does `pat`. */
  lemma Absent(s: string, pat: string)
    requires pat != [] && pat[0] !in s
    ensures IndexOf(s, pat) == -1
  {
    forall j | 0 <= j < |s| ensures !OccursAt(s, pat, j) {
      assert s[j] != pat[0];
      assert j + |pat| <= |s| ==> s[j..j + |pat|][0] == s[j];
    }
  }

  /** Splitting a join gives back the pieces, provided no piece contains the
      first character of the separator. */
  lemma {:induction false} SplitJoin(pieces: seq<string>, d: string)
    requires d != [] && pieces != []
    requires forall i :: 0 <= i < |pieces| ==> d[0] !in pieces[i]
    ensures Split(Join(pieces, d), d) == pieces
    decreases |pieces|
  {
    if |pieces| == 1 {
      Absent(pieces[0], d);
      SplitNone(pieces[0], d);
    } else {
      var rest := Join(pieces[1..], d);
      JoinCons(pieces[0], pieces[1..], d);
      assert [pieces[0]] + pieces[1..] == pieces;
      FirstOccurrenceAfter(pieces[0], d, rest);
      var s := pieces[0] + d + rest;
      SplitStep(s, d, |pieces[0]|);
      assert s[..|pieces[0]|] == pieces[0];
      assert s[|pieces[0]| + |d|..] == rest;
      SplitJoin(pieces[1..], d);
    }
  }
}

=== FILE: Wrappers.dfy ===
/** Optional values (a JSON field that may be absent) and results (a step
    that may throw). */
module Wrappers {
  datatype Option<T> = None | Some(value: T)

  datatype Result<T, E> = Ok(value: T) | Err(error: E)
}
